=== FILE: README.md ===
# job-guardians: a verified model of the legitimacy scorer and its pages

job-guardians helps job seekers judge whether a job posting is a scam. A
Supabase edge function, `analyze-job`, takes a pasted posting. It asks an
external chat-completion service for a 0-100 legitimacy score with an
explanation and a list of factors, and relays that JSON analysis to the browser.
Around it, React pages show scores in colour bands, search companies, file
reviews, and register or display companies.

This project models that logic as pure Dafny functions and proves what each
one promises:

- `AnalyzeJob` (`analyze_job.dfy`) is the `serve` handler as one decision
  function, `Handle`. It returns the HTTP response together with the outbound
  request, if one was made. The steps are: preflight, reading the body,
  validation, the API-key check, one call to the completion service, mapping of
  the upstream status, the content check and JSON parsing. The upstream call and
  `JSON.parse` are function parameters. The parsed analysis has an abstract type
  `J`, so it can only be passed through unchanged. The system prompt is kept as
  its lines. Its scoring rubric (0-30 / 31-50 / 51-70 / 71-100) is modelled as
  `RubricVerdict`, kept apart from the display bands.
- `Text` (`text.dfy`) holds `String.prototype.trim` (ECMAScript white space and
  line terminators), an ASCII `toLowerCase` and `includes`.
- `ScoreBand` (`score_band.dfy`) holds the 70 / 40 display bands repeated on the
  Detect, Reviews, Company, public company and user profile pages.
- `DetectPage`, `ReviewsPage`, `CompanyPage` and `CompanyPublicPage` hold the
  handlers and render decisions of those pages. Database answers and the
  function call are inputs. Toasts and navigation are returned as values.
- The 70 / 40 colour expression is written out separately on the Detect,
  Reviews, Company and public company (`CompanyPublic.tsx`, `/company/:id`) pages. Each copy is modelled as written,
  and each is proved to give the class of `ScoreBand.BandOf`.
- `Base` (`base.dfy`) holds the shared vocabulary: `Option`, toasts, the user,
  database errors and the `companies` row.

Edge cases of the handler that the model keeps as the code has them:

- The missing-key response is 500 with the thrown message "LOVABLE_API_KEY is
  not configured" (index.ts:27-28, 123-133).
- An empty content string is treated like a missing one (`!aiResponse`,
  index.ts:110), giving 500 "No response from AI".
- An empty `LOVABLE_API_KEY` counts as not configured, because the code tests
  `!LOVABLE_API_KEY` (index.ts:27).
- A truthy non-string `jobDescription` makes `.trim()` throw (index.ts:16), which
  ends in the 500 catch branch rather than the 400 branch.
- The pages send signed-out users to `/auth` (Reviews.tsx:80, Company.tsx:72),
  but the route table has no `/auth` route (App.tsx:24-34), so that navigation
  lands on the catch-all not-found page. The model records the navigation
  target only.
- The route table (App.tsx:24-34) neither imports nor routes `Company.tsx`, and
  the navigation link to `/company` (Navigation.tsx:53) also falls through to
  the catch-all page. `CompanyPage` models the hub's logic as written, although
  that route table cannot reach it.

## Model

| member | source | states |
|---|---|---|
| AnalyzeJob.Handle | supabase/functions/analyze-job/index.ts:8-135 | OPTIONS gets an empty 200 with the CORS headers and no call. Every other response has a JSON body and the JSON headers. A missing, falsy or white-space-only description gets 400 "Job description is required" with no call. An unreadable body or a non-string description ends in the catch branch. A valid description is answered by `AnswerPosting`. Status is always one of 200, 400, 402, 429, 500. |
| AnalyzeJob.Validate | supabase/functions/analyze-job/index.ts:16 | A description is accepted exactly when it is a string with a non-white-space character, and it is kept verbatim. `.trim()` throws exactly for truthy non-strings. |
| AnalyzeJob.AnswerPosting | supabase/functions/analyze-job/index.ts:26-80 | Without a non-empty key: 500 "LOVABLE_API_KEY is not configured" and no call. With a key: exactly one call, the one `BuildChatRequest` builds. Its answer is mapped by `AfterUpstream`, and a thrown fetch goes to the catch branch. |
| AnalyzeJob.BuildChatRequest | supabase/functions/analyze-job/index.ts:66-80 | The outbound request is a POST to the gateway URL with `Content-Type: application/json`, the fixed model, a `json_object` format and a bearer authorization. It holds exactly two messages: the system prompt, then a user message made of the fixed prefix followed by the description verbatim. |
| AnalyzeJob.UserMessage | supabase/functions/analyze-job/index.ts:76 | The user message starts with "Analyze this job posting:\n\n" and the rest is exactly the description. |
| AnalyzeJob.UserMessageInjective | supabase/functions/analyze-job/index.ts:76 | Distinct descriptions give distinct user messages: nothing is truncated or altered. |
| AnalyzeJob.AfterUpstream | supabase/functions/analyze-job/index.ts:82-121 | 429 gives 429 with the rate-limit message, and 402 gives 402 with the payment message. Any other non-2xx gives 500 "AI service error". A 2xx whose body cannot be read goes to the catch branch. A 2xx with absent or empty content gives 500 "No response from AI". A parse failure gives 500 with the parse error's message. Status 200 happens exactly when the content parses, and the body is then the parsed value unchanged. |
| AnalyzeJob.CaughtMessage | supabase/functions/analyze-job/index.ts:123-133 | The catch branch reports an `Error`'s own message, and "Failed to analyze job posting" for any other thrown value. |
| AnalyzeJob.HeadersAllowAnyOrigin | supabase/functions/analyze-job/index.ts:3-6 | Both the CORS header set and the JSON header set map `Access-Control-Allow-Origin` to `*`. The JSON set also has `Content-Type: application/json`. |
| AnalyzeJob.EveryResponseAllowsAnyOrigin | supabase/functions/analyze-job/index.ts:8-135 | Every response of the handler, success or error, carries `Access-Control-Allow-Origin: *`. |
| AnalyzeJob.CalledExactlyForValidConfiguredRequests | supabase/functions/analyze-job/index.ts:9-80 | The service is called iff the request is not OPTIONS, the description is a string with a non-white-space character and the key is set. The call is then built from that description and key. |
| AnalyzeJob.BadRequestExactlyOnRejection | supabase/functions/analyze-job/index.ts:16-24 | Status 400 is returned iff the description was rejected by validation. |
| AnalyzeJob.PreflightIgnoresEverythingElse | supabase/functions/analyze-job/index.ts:9-11 | The OPTIONS response depends on nothing else: not on the body, which is never read, nor on the key or the service. |
| AnalyzeJob.RejectionIgnoresKeyAndService | supabase/functions/analyze-job/index.ts:16-29 | A rejected description gets the same answer whatever the key and the service: both are consulted only after validation. |
| AnalyzeJob.RubricVerdict | supabase/functions/analyze-job/index.ts:33-37 | The prompt's rubric assigns exactly one band to each score in 0..100: 0-30, 31-50, 51-70, 71-100. |
| AnalyzeJob.RubricStatedInPrompt | supabase/functions/analyze-job/index.ts:31-64 | The four rubric bands are stated, in order, on lines 4 to 7 of the system prompt. |
| Text.TrimStart | supabase/functions/analyze-job/index.ts:16 | The result is a suffix of the input. Everything removed is white space. The result is empty or starts with a non-white-space character. |
| Text.TrimEnd | supabase/functions/analyze-job/index.ts:16 | The result is a prefix of the input. Everything removed is white space. The result is empty or ends with a non-white-space character. |
| Text.Trim | supabase/functions/analyze-job/index.ts:16 | The result is no longer than the input, and is empty or has non-white-space characters at both ends. |
| Text.TrimIsInteriorSlice | supabase/functions/analyze-job/index.ts:16 | `trim()` returns a slice `s[i..j]` of its input, and everything before `i` and after `j` is white space. |
| Text.TrimEmptyIffAllWhitespace | supabase/functions/analyze-job/index.ts:16 | `trim()` gives "" iff every character is white space. |
| Text.TrimOfTrimmed | src/pages/Detect.tsx:32 | A string without white space at either end is its own trim. |
| Text.TrimIdempotent | src/pages/Detect.tsx:32 | Trimming twice equals trimming once. |
| Text.LowerChar | src/pages/Reviews.tsx:113 | The lowered character is never an upper-case ASCII letter. It is the input, or that letter's lower-case form. |
| Text.Lower | src/pages/Reviews.tsx:113 | Lowering keeps the length and lowers each character in place. |
| Text.LowerIdempotent | src/pages/Reviews.tsx:113 | Lowering a lowered string changes nothing. |
| Text.OccursImpliesIncludes | src/pages/Reviews.tsx:113 | An occurrence of the term at any index makes `includes` true. |
| Text.IncludesImpliesOccurs | src/pages/Reviews.tsx:113 | When `includes` is true, the lemma names an index where the term occurs. |
| Text.IncludesIffOccurs | src/pages/Reviews.tsx:113 | `includes` holds iff the term occurs as a contiguous block at some index. |
| Text.IncludesEmpty | src/pages/Reviews.tsx:112-114 | Every string includes the empty string. |
| ScoreBand.BandOf | src/pages/Detect.tsx:57-61 | Exactly one band holds for each score: success iff the score is at least 70, warning iff it is 40 to 69, danger iff it is below 40. |
| ScoreBand.BandMonotone | src/pages/Detect.tsx:57-61 | Raising a score never moves it to a worse band. |
| ScoreBand.ColorClassInjective | src/pages/Detect.tsx:57-61 | The three bands render with three distinct CSS classes. |
| DetectPage.AnalyzeDisabled | src/pages/Detect.tsx:99 | The Analyze button is disabled iff the page is analyzing or the description is white space only. |
| DetectPage.FailureText | src/pages/Detect.tsx:51 | The error toast shows the error's message, or exactly "Failed to analyze job posting" when that message is empty. It is never empty. |
| DetectPage.HandleAnalyze | src/pages/Detect.tsx:31-55 | The function is invoked iff the description has a non-white-space character, and it gets the untrimmed text. Otherwise the state is unchanged and an error toast asks for a description. While the call runs, the old result is cleared and `analyzing` is true. Afterwards `analyzing` is false. On success the result becomes the returned data (possibly `null`) and a success toast is raised. On failure the result stays cleared and the error message is shown. |
| DetectPage.NullDataShowsNoCard | src/pages/Detect.tsx:45-48 | A call that returns no error and `null` data still toasts "Analysis complete!", yet no result card is shown. |
| DetectPage.EnabledButtonInvokes | src/pages/Detect.tsx:97-99 | Pressing the button when it is enabled always invokes the function. |
| DetectPage.GuardAgreesWithHandler | src/pages/Detect.tsx:32-35 | The page's trim guard accepts a description iff the edge function's validation accepts it. |
| DetectPage.ScoreColor | src/pages/Detect.tsx:57-61 | `getScoreColor` gives the class of the score's band. |
| DetectPage.ScoreIcon | src/pages/Detect.tsx:63-67 | `getScoreIcon` gives the icon of the score's band: check circle, alert triangle or shield. |
| DetectPage.IconAgreesWithColor | src/pages/Detect.tsx:57-67 | The icon is always coloured like the score next to it. |
| DetectPage.ListedFactors | src/pages/Detect.tsx:143-152 | The factors are listed in their original order when present and non-empty. Otherwise none are listed. |
| DetectPage.FactorsShownIffListed | src/pages/Detect.tsx:143 | The Key Factors section appears iff there is at least one factor to list. |
| DetectPage.DisplayBandsDifferFromRubric | supabase/functions/analyze-job/index.ts:33-37 | The page's bands and the prompt's rubric disagree. 70 shows as success but the rubric says possibly legitimate. 31-39 shows as danger but the rubric says suspicious. |
| ReviewsPage.FilterCompanies | src/pages/Reviews.tsx:112-114 | The filtered list is no longer than the company list, and every kept company's lowercased name contains the lowercased term. |
| ReviewsPage.FilterKeepsOrder | src/pages/Reviews.tsx:112-114 | The filtered list is an order-preserving subsequence of the company list. |
| ReviewsPage.FilterKeepsExactlyMatches | src/pages/Reviews.tsx:112-114 | Every matching company is kept as often as it occurs in the list, and no other company is kept. |
| ReviewsPage.EmptyTermKeepsAll | src/pages/Reviews.tsx:112-114 | An empty search term keeps the whole list. |
| ReviewsPage.FilterIgnoresTermCase | src/pages/Reviews.tsx:113 | Lowering the search term first does not change the result. |
| ReviewsPage.FilterMembership | src/pages/Reviews.tsx:112-114 | A company is listed iff it is in the list and its name matches the term. |
| ReviewsPage.ReviewRow | src/pages/Reviews.tsx:93-98 | The inserted row names the selected company and the user, and carries the form's text. `is_scam` is true iff the form value is the string "true". |
| ReviewsPage.SubmitReview | src/pages/Reviews.tsx:75-110 | With no user there is no insert, and the page redirects to /auth; this check comes before the company check. With no selected company there is no insert and no redirect. Otherwise exactly one insert is built from the form. The form resets to {"false", ""} and the lists reload iff the insert succeeded; on failure the form is unchanged. |
| ReviewsPage.CompanyScoreColor | src/pages/Reviews.tsx:170-172 | A company's score in the list gets the class of its 70/40 band. |
| CompanyPage.OrEmpty | src/pages/Company.tsx:60-61 | An absent description or website reads as "". A present one reads as itself. |
| CompanyPage.FormFor | src/pages/Company.tsx:58-62 | A loaded company fills the form with its name, and with its description and website defaulting to "". |
| CompanyPage.FetchCompany | src/pages/Company.tsx:46-65 | `loading` is true while the query runs and false afterwards, whatever the outcome. An error is reported iff its code is not PGRST116, and then nothing else changes. Otherwise a returned company is kept and fills the form. |
| CompanyPage.NoCompanyIsNotAFailure | src/pages/Company.tsx:54-55 | A user without a company, whose query fails with PGRST116, finishes loading with the empty form and no toast. |
| CompanyPage.InsertErrorMessage | src/pages/Company.tsx:98-103 | An insert error with code 23505 reports "A company with this name already exists". Any other code reports "Failed to register company". |
| CompanyPage.SubmitCompany | src/pages/Company.tsx:67-109 | With no user there is no write, and the page redirects to /auth. With a user there is exactly one write: an update keyed by the loaded company's id, else an insert owned by the user. The page navigates to /auth iff there is no user. The company is reloaded iff the write succeeded, with the update or registration success toast. Failures are reported by kind. |
| CompanyPage.StatusScoreColor | src/pages/Company.tsx:222-224 | The status card's score gets the class of its 70/40 band. |
| CompanyPublicPage.FetchPublicCompany | src/pages/CompanyPublic.tsx:32-47 | Without a route id, missing or empty (`!id`), there is no query and nothing changes, so `loading` stays true. With a non-empty id, that id is queried and loading ends. An error leaves the company as it was; otherwise the returned row is kept. |
| CompanyPublicPage.StatsOf | src/pages/CompanyPublic.tsx:158-169 | The page shows the total and the scam reports as stored. Legitimate reviews plus scam reports equal the total. |
| CompanyPublicPage.ScoreColor | src/pages/CompanyPublic.tsx:76-77 | `scoreColor` is the class of the score's 70/40 band. |
| CompanyPublicPage.ViewOf | src/pages/CompanyPublic.tsx:49-77 | The loading view shows iff `loading`, and takes precedence over not-found. Not-found shows iff loading is over and no company is held. The details view shows the held company, its band colour and its statistics. |
| CompanyPublicPage.FetchErrorShowsNotFound | src/pages/CompanyPublic.tsx:41-74 | A failed query for a non-empty id on first load leads to the "Company not found" view. |
| CompanyPublicPage.MissingIdKeepsLoading | src/pages/CompanyPublic.tsx:32-58 | Without a route id, missing or empty, the page keeps showing "Loading...". |

## Left out

- The network and the runtime: `serve`, `req.json()`, `Deno.env.get`, `fetch`, `response.json()` and `JSON.parse`. They are inputs of `AnalyzeJob.Handle`: the outcome of reading the body, an optional key, a function answering the outbound request, and a parse function.
- Logging (`console.error`) in the handler and the pages: it has no effect on any response or state.
- The upstream error text: `await response.text()` for other non-2xx statuses is only logged, and that read throwing is not modelled.
- AnalyzeJob.AfterUpstream: treats `choices[0].message.content` as an optional string. A non-string content value, which `JSON.parse` would first convert to a string, is not modelled.
- The system prompt is kept verbatim as lines, but the only claim made about its text is where the rubric lines stand.
- ScoreBand.BandOf: scores are modelled as integers. A fractional, `NaN` or missing score (JavaScript comparisons with `undefined` are false, so it would show as danger) is not modelled.
- Text.Lower: only ASCII letters are lowered; full Unicode `toLowerCase` is not modelled.
- Toasts and `navigate` are returned as values (`Toast`, `redirect`), and rendering is returned as view tags. React rendering itself is not modelled.
- The `submitting` flag of the Reviews form: it is true only while the insert is awaited.
- The session subscriptions (`getSession`, `onAuthStateChange`) are not modelled. Each handler takes the current user as an input.
- Reloading after a successful write is returned as a flag or user id. `fetchReviews` and `fetchCompanies` on the Reviews page, `handleCompanySelect` and the loading view of the Company hub are not modelled.
- DetectPage.HandleAnalyze: non-null data is taken to have the analysis shape (score, explanation, optional factors). A well-formed JSON value of another shape, which the edge function would pass through, is not modelled.
- DetectPage.HandleAnalyze, ReviewsPage.SubmitReview: each handler run is modelled as atomic. Edits made to the description or the review form while a call is awaited are not modelled, so "the description is unchanged" and "the form is kept on failure" mean that the handler itself does not write them.
- The Supabase queries and row-level security: query results are inputs.
- src/pages/Index.tsx, src/components/Navigation.tsx, src/App.tsx, src/pages/CompanyAuth.tsx and src/pages/UserProfile.tsx are not part of this model. They hold static content, link styling, a route table, sign-up plumbing, and the same 70/40 banding with a missing score read as 0.
- The reputation score is aggregated in the database and does not appear in this code.

=== FILE: analyze_job.dfy ===
/** The `analyze-job` edge function: it validates a pasted job posting, asks an
    external chat-completion service to score its legitimacy, and relays the
    service's JSON analysis (or an error) to the browser.

    The runtime is abstracted away: the request body as read by `req.json()`,
    the `LOVABLE_API_KEY` environment value, the outbound `fetch` and
    `JSON.parse` are inputs of `Handle`. */
module AnalyzeJob {
  import opened Base
  import Text

  // ----- Constants of the handler -----

  const AllowOrigin := "Access-Control-Allow-Origin"

  /** Permissive cross-origin headers sent with every response. */
  const CorsHeaders: map<string, string> := map[
    AllowOrigin := "*",
    "Access-Control-Allow-Headers" := "authorization, x-client-info, apikey, content-type"
  ]

  /** Headers of every response that carries a JSON body. */
  const JsonHeaders: map<string, string> := CorsHeaders["Content-Type" := "application/json"]

  const PreflightMethod := "OPTIONS"
  const GatewayUrl := "https://ai.gateway.lovable.dev/v1/chat/completions"
  const ModelId := "google/gemini-2.5-flash"
  const ResponseFormat := "json_object"

  /** Fixed text placed before the job posting in the user message. */
  const UserPrefix := "Analyze this job posting:\n\n"

  const RequiredMessage := "Job description is required"
  const MissingKeyMessage := "LOVABLE_API_KEY is not configured"
  const RateLimitMessage := "Rate limit exceeded. Please try again later."
  const PaymentMessage := "AI service payment required. Please contact support."
  const ServiceErrorMessage := "AI service error"
  const NoResponseMessage := "No response from AI"
  /** Reported when the caught value is not an `Error` object. */
  const FallbackMessage := "Failed to analyze job posting"

  /** The lines of the fixed instruction sent as the system message. */
  const SystemPromptLines: seq<string> := [
    "You are a job posting legitimacy analyzer. Analyze job descriptions for signs of scams or fake postings.",
    "",
    "Score the job posting from 0-100 based on legitimacy:",
    "- 0-30: Very likely a scam",
    "- 31-50: Suspicious, proceed with caution",
    "- 51-70: Possibly legitimate, verify details",
    "- 71-100: Likely legitimate",
    "",
    "Consider these red flags:",
    "- Unrealistic salary promises",
    "- Vague job descriptions",
    "- Requests for personal financial information",
    "- Poor grammar and spelling",
    "- Pressure to act quickly",
    "- Requests for upfront payment",
    "- No company details or contact information",
    "- Too good to be true promises",
    "- Pyramid scheme indicators",
    "",
    "Consider these legitimacy indicators:",
    "- Detailed job requirements",
    "- Realistic salary ranges",
    "- Professional communication",
    "- Company verification details",
    "- Clear application process",
    "- Specific role responsibilities",
    "- Industry-standard terminology",
    "",
    "Return your analysis as JSON with this structure:",
    "{",
    "  \"score\": number (0-100),",
    "  \"explanation\": \"Brief explanation of the score\",",
    "  \"factors\": [\"List of key factors that influenced the score\"]",
    "}"
  ]

  /** `lines` joined with line feeds, as a multi-line template literal reads. */
  function JoinLines(lines: seq<string>): string {
    if |lines| == 0 then ""
    else if |lines| == 1 then lines[0]
    else lines[0] + "\n" + JoinLines(lines[1..])
  }

  /** The fixed instruction sent as the system message. */
  function SystemPrompt(): string {
    JoinLines(SystemPromptLines)
  }

  // ----- Data shapes -----

  /** A value thrown inside the handler's `try` block. */
  datatype Exception = ErrorObject(message: string) | NonErrorValue

  /** The outcome of a step that may throw. */
  datatype Attempt<+T> = Returned(value: T) | Threw(exception: Exception)

  /** The `jobDescription` property of the parsed request body. */
  datatype JobField =
    | Absent                              // undefined or null
    | StringValue(text: string)           // a string (possibly empty)
    | FalsyNonString                      // false, 0 or NaN
    | TruthyNonString(trimError: string)  // any other value; `.trim()` throws a TypeError

  /** An incoming request: its HTTP method (`verb`) and the outcome of reading its JSON body. */
  datatype Request = Request(verb: string, body: Attempt<JobField>)

  datatype Message = Message(role: string, content: string)

  /** The outbound request to the completion service. */
  datatype ChatRequest = ChatRequest(
    httpMethod: string,
    url: string,
    authorization: string,
    contentType: string,
    model: string,
    messages: seq<Message>,
    responseFormat: string
  )

  /** What came back from the completion service: its HTTP status, and the
      outcome of reading `choices[0].message.content` from its JSON body. */
  datatype UpstreamResponse = UpstreamResponse(status: int, content: Attempt<Option<string>>)

  /** A response body: none, `{ error }`, or the parsed analysis re-serialised. */
  datatype Body<+J> = NullBody | ErrorBody(error: string) | AnalysisBody(analysis: J)

  datatype Response<+J> = Response(status: int, body: Body<J>, headers: map<string, string>)

  /** The response together with the outbound request, if one was made. */
  datatype Outcome<+J> = Outcome(response: Response<J>, sent: Option<ChatRequest>)

  /** The result of the input check on `jobDescription`. */
  datatype Validation = Rejected | TrimThrew(exception: Exception) | Accepted(description: string)

  // ----- Steps of the handler -----

  /** `response.ok`: a 2xx status. */
  predicate IsOk(status: int) {
    200 <= status <= 299
  }

  /** `!jobDescription || jobDescription.trim() === ""`, with `.trim()` throwing
      on a truthy non-string. */
  function Validate(field: JobField): (v: Validation)
    ensures v.Accepted? <==> field.StringValue? && !Text.AllWhitespace(field.text)
    ensures v.Accepted? ==> v.description == field.text
    ensures v.TrimThrew? <==> field.TruthyNonString?
    ensures v.TrimThrew? ==> v.exception == ErrorObject(field.trimError)
  {
    match field
    case Absent => Rejected
    case FalsyNonString => Rejected
    case TruthyNonString(m) => TrimThrew(ErrorObject(m))
    case StringValue(s) =>
      Text.TrimEmptyIffAllWhitespace(s);
      if s == "" || Text.Trim(s) == "" then Rejected else Accepted(s)
  }

  /** `!LOVABLE_API_KEY` is false: the key is set and not empty. */
  predicate KeyConfigured(key: Option<string>) {
    key.Some? && key.value != ""
  }

  /** The user message: the fixed prefix followed by the posting verbatim. */
  function UserMessage(description: string): (m: string)
    ensures UserPrefix <= m
    ensures m[|UserPrefix|..] == description
  {
    UserPrefix + description
  }

  /** Different postings never produce the same user message: nothing is cut or altered. */
  lemma UserMessageInjective(a: string, b: string)
    requires UserMessage(a) == UserMessage(b)
    ensures a == b
  {
  }

  /** The single outbound request made for an accepted posting. */
  function BuildChatRequest(description: string, key: string): (c: ChatRequest)
    ensures c.httpMethod == "POST" && c.url == GatewayUrl
    ensures c.contentType == "application/json"
    ensures c.model == ModelId && c.responseFormat == ResponseFormat
    ensures |c.messages| == 2
    ensures c.messages[0] == Message("system", SystemPrompt())
    ensures c.messages[1].role == "user"
    ensures UserPrefix <= c.messages[1].content && c.messages[1].content[|UserPrefix|..] == description
    ensures c.authorization == "Bearer " + key
  {
    ChatRequest("POST", GatewayUrl, "Bearer " + key, "application/json", ModelId,
                [Message("system", SystemPrompt()), Message("user", UserMessage(description))],
                ResponseFormat)
  }

  /** Both header sets allow any origin. */
  lemma HeadersAllowAnyOrigin()
    ensures AllowOrigin in CorsHeaders && CorsHeaders[AllowOrigin] == "*"
    ensures AllowOrigin in JsonHeaders && JsonHeaders[AllowOrigin] == "*"
    ensures "Content-Type" in JsonHeaders && JsonHeaders["Content-Type"] == "application/json"
  {
  }

  /** The message the `catch` block reports for a thrown value. */
  function CaughtMessage(e: Exception): (m: string)
    ensures e.ErrorObject? ==> m == e.message
    ensures e.NonErrorValue? ==> m == FallbackMessage
  {
    match e
    case ErrorObject(msg) => msg
    case NonErrorValue => FallbackMessage
  }

  /** A JSON `{ error }` response with the given status. */
  function ErrorResponse<J>(status: int, message: string): Response<J> {
    Response(status, ErrorBody(message), JsonHeaders)
  }

  /** The response of the `catch` block. */
  function Caught<J>(e: Exception): Response<J> {
    ErrorResponse(500, CaughtMessage(e))
  }

  /** Everything the handler does once the completion service has answered. */
  function AfterUpstream<J>(resp: UpstreamResponse, parse: string -> Attempt<J>): (r: Response<J>)
    ensures r.headers == JsonHeaders && !r.body.NullBody?
    ensures r.status in {200, 402, 429, 500}
    ensures resp.status == 429 ==> r == ErrorResponse(429, RateLimitMessage)
    ensures resp.status == 402 ==> r == ErrorResponse(402, PaymentMessage)
    ensures !IsOk(resp.status) && resp.status != 429 && resp.status != 402 ==>
              r == ErrorResponse(500, ServiceErrorMessage)
    ensures IsOk(resp.status) && resp.content.Threw? ==> r == Caught(resp.content.exception)
    ensures IsOk(resp.status) && resp.content.Returned? && resp.content.value.GetOr("") == "" ==>
              r == ErrorResponse(500, NoResponseMessage)
    ensures IsOk(resp.status) && resp.content.Returned? && resp.content.value.GetOr("") != "" &&
            parse(resp.content.value.value).Threw? ==>
              r == Caught(parse(resp.content.value.value).exception)
    // Success exactly when the service answered 2xx with content that parses;
    // the parsed value is then passed through unchanged.
    ensures r.status == 200 <==>
              IsOk(resp.status) && resp.content.Returned? && resp.content.value.GetOr("") != "" &&
              parse(resp.content.value.value).Returned?
    ensures r.status == 200 ==> r.body == AnalysisBody(parse(resp.content.value.value).value)
  {
    if !IsOk(resp.status) then
      if resp.status == 429 then ErrorResponse(429, RateLimitMessage)
      else if resp.status == 402 then ErrorResponse(402, PaymentMessage)
      else Caught(ErrorObject(ServiceErrorMessage))
    else
      match resp.content
      case Threw(e) => Caught(e)
      case Returned(content) =>
        if content.None? || content.value == "" then Caught(ErrorObject(NoResponseMessage))
        else
          match parse(content.value)
          case Threw(e) => Caught(e)
          case Returned(analysis) => Response(200, AnalysisBody(analysis), JsonHeaders)
  }

  /** The handler after validation: the key check, then one call to the service. */
  function AnswerPosting<J>(
    description: string,
    apiKey: Option<string>,
    upstream: ChatRequest -> Attempt<UpstreamResponse>,
    parse: string -> Attempt<J>
  ): (o: Outcome<J>)
    ensures o.response.headers == JsonHeaders && !o.response.body.NullBody?
    ensures o.response.status in {200, 402, 429, 500}
    ensures !KeyConfigured(apiKey) ==> o == Outcome(ErrorResponse(500, MissingKeyMessage), None)
    ensures o.sent.Some? <==> KeyConfigured(apiKey)
    ensures o.sent.Some? ==> o.sent.value == BuildChatRequest(description, apiKey.value)
    ensures o.sent.Some? && upstream(o.sent.value).Returned? ==>
              o.response == AfterUpstream(upstream(o.sent.value).value, parse)
    ensures o.sent.Some? && upstream(o.sent.value).Threw? ==>
              o.response == Caught(upstream(o.sent.value).exception)
  {
    if !KeyConfigured(apiKey) then
      Outcome(Caught(ErrorObject(MissingKeyMessage)), None)
    else
      var call := BuildChatRequest(description, apiKey.value);
      match upstream(call)
      case Threw(e) => Outcome(Caught(e), Some(call))
      case Returned(resp) => Outcome(AfterUpstream(resp, parse), Some(call))
  }

  /** The `serve` handler: preflight, then reading the body, then validation,
      then `AnswerPosting`. */
  function Handle<J>(
    req: Request,
    apiKey: Option<string>,
    upstream: ChatRequest -> Attempt<UpstreamResponse>,
    parse: string -> Attempt<J>
  ): (o: Outcome<J>)
    // Preflight: an empty 200 response with the CORS headers, whatever the body.
    ensures req.verb == PreflightMethod ==> o == Outcome(Response(200, NullBody, CorsHeaders), None)
    // Every other response has a JSON body and the JSON headers.
    ensures req.verb != PreflightMethod ==> o.response.headers == JsonHeaders && !o.response.body.NullBody?
    ensures o.response.status in {200, 400, 402, 429, 500}
    // Missing, empty or white-space-only descriptions are rejected with 400 and no call.
    ensures req.verb != PreflightMethod && req.body.Returned? &&
            (req.body.value.Absent? || req.body.value.FalsyNonString? ||
             (req.body.value.StringValue? && Text.AllWhitespace(req.body.value.text))) ==>
              o == Outcome(ErrorResponse(400, RequiredMessage), None)
    // An unreadable body, or a non-string description, ends in the catch block.
    ensures req.verb != PreflightMethod && req.body.Threw? ==> o == Outcome(Caught(req.body.exception), None)
    ensures req.verb != PreflightMethod && req.body.Returned? && req.body.value.TruthyNonString? ==>
              o == Outcome(ErrorResponse(500, req.body.value.trimError), None)
    // A valid description is answered by `AnswerPosting`.
    ensures req.verb != PreflightMethod && req.body.Returned? && req.body.value.StringValue? &&
            !Text.AllWhitespace(req.body.value.text) ==>
              o == AnswerPosting(req.body.value.text, apiKey, upstream, parse)
  {
    if req.verb == PreflightMethod then
      Outcome(Response(200, NullBody, CorsHeaders), None)
    else
      match req.body
      case Threw(e) => Outcome(Caught(e), None)
      case Returned(field) =>
        match Validate(field)
        case Rejected => Outcome(ErrorResponse(400, RequiredMessage), None)
        case TrimThrew(e) => Outcome(Caught(e), None)
        case Accepted(description) => AnswerPosting(description, apiKey, upstream, parse)
  }

  /** Every response, success or error, carries `Access-Control-Allow-Origin: *`. */
  lemma EveryResponseAllowsAnyOrigin<J>(
    req: Request, apiKey: Option<string>,
    upstream: ChatRequest -> Attempt<UpstreamResponse>, parse: string -> Attempt<J>)
    ensures var h := Handle(req, apiKey, upstream, parse).response.headers;
            AllowOrigin in h && h[AllowOrigin] == "*"
  {
  }

  /** The service is called exactly when the request is not a preflight, its
      description is a string with a non-white-space character and the key is
      set; the call is then the one built from that description and key. */
  lemma CalledExactlyForValidConfiguredRequests<J>(
    req: Request, apiKey: Option<string>,
    upstream: ChatRequest -> Attempt<UpstreamResponse>, parse: string -> Attempt<J>)
    ensures var o := Handle(req, apiKey, upstream, parse);
            && (o.sent.Some? <==>
                  req.verb != PreflightMethod && req.body.Returned? && req.body.value.StringValue? &&
                  !Text.AllWhitespace(req.body.value.text) && KeyConfigured(apiKey))
            && (o.sent.Some? ==> o.sent.value == BuildChatRequest(req.body.value.text, apiKey.value))
  {
  }

  /** Status 400 is returned exactly for a rejected description. */
  lemma BadRequestExactlyOnRejection<J>(
    req: Request, apiKey: Option<string>,
    upstream: ChatRequest -> Attempt<UpstreamResponse>, parse: string -> Attempt<J>)
    ensures Handle(req, apiKey, upstream, parse).response.status == 400 <==>
              req.verb != PreflightMethod && req.body.Returned? && Validate(req.body.value).Rejected?
  {
  }

  /** The preflight response does not depend on the body, the key or the service. */
  lemma PreflightIgnoresEverythingElse<J>(
    b1: Attempt<JobField>, k1: Option<string>, u1: ChatRequest -> Attempt<UpstreamResponse>, p1: string -> Attempt<J>,
    b2: Attempt<JobField>, k2: Option<string>, u2: ChatRequest -> Attempt<UpstreamResponse>, p2: string -> Attempt<J>)
    ensures Handle(Request(PreflightMethod, b1), k1, u1, p1) == Handle(Request(PreflightMethod, b2), k2, u2, p2)
  {
  }

  /** A rejected description is answered without looking at the key or the service. */
  lemma RejectionIgnoresKeyAndService<J>(
    verb: string, field: JobField,
    k1: Option<string>, u1: ChatRequest -> Attempt<UpstreamResponse>, p1: string -> Attempt<J>,
    k2: Option<string>, u2: ChatRequest -> Attempt<UpstreamResponse>, p2: string -> Attempt<J>)
    requires verb != PreflightMethod && Validate(field).Rejected?
    ensures Handle(Request(verb, Returned(field)), k1, u1, p1) == Handle(Request(verb, Returned(field)), k2, u2, p2)
  {
  }

  // ----- The scoring rubric stated in the system prompt -----

  /** The four labelled bands the prompt asks the model to score by. */
  datatype Verdict = VeryLikelyScam | Suspicious | PossiblyLegitimate | LikelyLegitimate

  /** The rubric band of an in-range score; exactly one band holds for each. */
  function RubricVerdict(score: int): (v: Verdict)
    requires 0 <= score <= 100
    ensures v == VeryLikelyScam <==> score <= 30
    ensures v == Suspicious <==> 31 <= score <= 50
    ensures v == PossiblyLegitimate <==> 51 <= score <= 70
    ensures v == LikelyLegitimate <==> 71 <= score
  {
    if score <= 30 then VeryLikelyScam
    else if score <= 50 then Suspicious
    else if score <= 70 then PossiblyLegitimate
    else LikelyLegitimate
  }

  /** The line of the system prompt that states a rubric band. */
  function RubricLine(v: Verdict): string {
    match v
    case VeryLikelyScam => "- 0-30: Very likely a scam"
    case Suspicious => "- 31-50: Suspicious, proceed with caution"
    case PossiblyLegitimate => "- 51-70: Possibly legitimate, verify details"
    case LikelyLegitimate => "- 71-100: Likely legitimate"
  }

  /** Each rubric band is stated, in order, on lines 4 to 7 of the system prompt. */
  lemma RubricStatedInPrompt()
    ensures |SystemPromptLines| > 6
    ensures SystemPromptLines[3] == RubricLine(VeryLikelyScam)
    ensures SystemPromptLines[4] == RubricLine(Suspicious)
    ensures SystemPromptLines[5] == RubricLine(PossiblyLegitimate)
    ensures SystemPromptLines[6] == RubricLine(LikelyLegitimate)
  {
  }
}

=== FILE: base.dfy ===
/** Shared vocabulary of the application: optional values, user feedback
    notifications, the signed-in user, database errors and the `companies`
    table row that several pages read. */
module Base {

  /** A value that may be absent (`null`/`undefined` in the application). */
  datatype Option<+T> = None | Some(value: T) {

    /** The wrapped value, or `default` when absent. */
    function GetOr(default: T): T {
      match this
      case Some(v) => v
      case None => default
    }
  }

  /** The toast notification a handler raises, if any. */
  datatype Toast = NoToast | ErrorToast(text: string) | SuccessToast(text: string)

  /** The authenticated user; only the id is ever read. */
  datatype User = User(id: string)

  /** An error returned by a database query, identified by its code. */
  datatype DbError = DbError(code: string)

  /** A row of the `companies` table as the pages read it. */
  datatype Company = Company(
    id: string,
    userId: string,
    name: string,
    description: Option<string>,
    website: Option<string>,
    verified: bool,
    baseScore: int,
    totalReviews: int,
    scamCount: int
  )

  /** The `{ data, error }` pair returned by a `.single()` query. */
  datatype SingleRow = SingleRow(data: Option<Company>, error: Option<DbError>)

  /** The route the pages navigate to when a signed-out user submits a form. */
  const AuthRoute := "/auth"
}

=== FILE: company.dfy ===
/** The Company hub page: a signed-in user registers a company, or edits the
    one they already own. */
module CompanyPage {
  import opened Base
  import opened ScoreBand

  /** The form's fields. */
  datatype CompanyForm = CompanyForm(name: string, description: string, website: string)

  const EmptyForm := CompanyForm("", "", "")

  /** The page's state: the owned company, the form and the loading flag. */
  datatype HubState = HubState(company: Option<Company>, form: CompanyForm, loading: bool)

  const InitialHub := HubState(None, EmptyForm, true)

  /** The error code of a `.single()` query that matched no row. */
  const NoRowsCode := "PGRST116"
  /** The error code of a unique-constraint violation. */
  const UniqueViolationCode := "23505"

  const LoadFailedMessage := "Failed to load company data"
  const LoginMessage := "Please login to register a company"
  const UpdateFailedMessage := "Failed to update company"
  const UpdatedMessage := "Company updated successfully!"
  const DuplicateMessage := "A company with this name already exists"
  const RegisterFailedMessage := "Failed to register company"
  const RegisteredMessage := "Company registered successfully!"

  // ----- Loading the owned company -----

  /** `value || ""`: an absent optional text reads as empty. */
  function OrEmpty(o: Option<string>): (s: string)
    ensures o.Some? ==> s == o.value
    ensures o.None? ==> s == ""
  {
    o.GetOr("")
  }

  /** The form filled in from a loaded company. */
  function FormFor(c: Company): (f: CompanyForm)
    ensures f.name == c.name
    ensures f.description == OrEmpty(c.description) && f.website == OrEmpty(c.website)
  {
    CompanyForm(c.name, OrEmpty(c.description), OrEmpty(c.website))
  }

  /** A query error the page reports: any error except "no row". */
  predicate Reported(result: SingleRow) {
    result.error.Some? && result.error.value.code != NoRowsCode
  }

  /** One run of `fetchCompany`: the user queried, the state while the query
      is awaited, the state afterwards and the toast raised. */
  datatype FetchRun = FetchRun(queried: string, pending: HubState, final: HubState, toast: Toast)

  /** `fetchCompany`; `query` is the database's answer for a user id. */
  function FetchCompany(s: HubState, userId: string, query: string -> SingleRow): (run: FetchRun)
    ensures run.queried == userId && run.pending == s.(loading := true)
    // Loading ends whatever the outcome.
    ensures !run.final.loading
    // Only errors other than "no row" are reported, and they change nothing else.
    ensures run.toast == ErrorToast(LoadFailedMessage) <==> Reported(query(userId))
    ensures run.toast.NoToast? <==> !Reported(query(userId))
    ensures Reported(query(userId)) ==> run.final == s.(loading := false)
    // A loaded company is kept and fills the form.
    ensures !Reported(query(userId)) && query(userId).data.Some? ==>
              run.final == HubState(query(userId).data, FormFor(query(userId).data.value), false)
    ensures !Reported(query(userId)) && query(userId).data.None? ==> run.final == s.(loading := false)
  {
    var pending := s.(loading := true);
    var result := query(userId);
    if Reported(result) then
      FetchRun(userId, pending, pending.(loading := false), ErrorToast(LoadFailedMessage))
    else if result.data.Some? then
      FetchRun(userId, pending, HubState(result.data, FormFor(result.data.value), false), NoToast)
    else
      FetchRun(userId, pending, pending.(loading := false), NoToast)
  }

  /** A user without a company finishes loading with the empty form, not with an error. */
  lemma NoCompanyIsNotAFailure(userId: string, query: string -> SingleRow)
    requires query(userId) == SingleRow(None, Some(DbError(NoRowsCode)))
    ensures FetchCompany(InitialHub, userId, query).final == InitialHub.(loading := false)
    ensures FetchCompany(InitialHub, userId, query).toast == NoToast
  {
  }

  // ----- Submitting the form -----

  /** The write `handleSubmit` performs. */
  datatype CompanyWrite =
    | UpdateCompany(companyId: string, form: CompanyForm)
    | InsertCompany(form: CompanyForm, userId: string)

  /** The toast for a failed insert. */
  function InsertErrorMessage(e: DbError): (m: string)
    ensures m == DuplicateMessage <==> e.code == UniqueViolationCode
    ensures m == RegisterFailedMessage <==> e.code != UniqueViolationCode
  {
    if e.code == UniqueViolationCode then DuplicateMessage else RegisterFailedMessage
  }

  /** One run of `handleSubmit`: the write made (if any), the navigation, the
      toast, and the user whose company is then reloaded. */
  datatype SubmitRun = SubmitRun(write: Option<CompanyWrite>, redirect: Option<string>, toast: Toast, reloadFor: Option<string>)

  /** `handleSubmit`; `perform` is the database's answer to a write. */
  function SubmitCompany(
    user: Option<User>,
    company: Option<Company>,
    form: CompanyForm,
    perform: CompanyWrite -> Option<DbError>
  ): (run: SubmitRun)
    // No user: no write, navigates to /auth.
    ensures user.None? ==> run == SubmitRun(None, Some(AuthRoute), ErrorToast(LoginMessage), None)
    // With a user, exactly one write: an update of the loaded company, else an insert owned by the user.
    ensures run.write.Some? <==> user.Some?
    ensures run.redirect.Some? <==> user.None?
    ensures user.Some? && company.Some? ==> run.write == Some(UpdateCompany(company.value.id, form))
    ensures user.Some? && company.None? ==> run.write == Some(InsertCompany(form, user.value.id))
    // The company is reloaded exactly after a successful write.
    ensures run.reloadFor.Some? <==> run.write.Some? && perform(run.write.value).None?
    ensures run.reloadFor.Some? ==> run.reloadFor == Some(user.value.id)
    ensures run.reloadFor.Some? ==>
              run.toast == SuccessToast(if company.Some? then UpdatedMessage else RegisteredMessage)
    // Failed writes are reported by kind.
    ensures run.write.Some? && run.write.value.InsertCompany? && perform(run.write.value).Some? ==>
              run.toast == ErrorToast(InsertErrorMessage(perform(run.write.value).value))
    ensures run.write.Some? && run.write.value.UpdateCompany? && perform(run.write.value).Some? ==>
              run.toast == ErrorToast(UpdateFailedMessage)
  {
    if user.None? then
      SubmitRun(None, Some(AuthRoute), ErrorToast(LoginMessage), None)
    else if company.Some? then
      var w := UpdateCompany(company.value.id, form);
      match perform(w)
      case Some(_) => SubmitRun(Some(w), None, ErrorToast(UpdateFailedMessage), None)
      case None => SubmitRun(Some(w), None, SuccessToast(UpdatedMessage), Some(user.value.id))
    else
      var w := InsertCompany(form, user.value.id);
      match perform(w)
      case Some(e) => SubmitRun(Some(w), None, ErrorToast(InsertErrorMessage(e)), None)
      case None => SubmitRun(Some(w), None, SuccessToast(RegisteredMessage), Some(user.value.id))
  }

  /** The colour class of the company's score on the status card. */
  function StatusScoreColor(c: Company): (cls: string)
    ensures cls == ColorClass(BandOf(c.baseScore))
  {
    if c.baseScore >= 70 then "text-success"
    else if c.baseScore >= 40 then "text-warning"
    else "text-danger"
  }
}

=== FILE: company_public.dfy ===
/** The public company profile page, reached at `/company/:id`. */
module CompanyPublicPage {
  import opened Base
  import opened ScoreBand

  /** The page's state: the loaded company and the loading flag. */
  datatype PublicState = PublicState(company: Option<Company>, loading: bool)

  const InitialPublic := PublicState(None, true)

  /** One run of `fetchCompany`: the id queried (if any) and the state afterwards. */
  datatype PublicFetchRun = PublicFetchRun(queried: Option<string>, final: PublicState)

  /** `!id` on the route parameter: a missing id and an empty one are both falsy. */
  predicate HasId(id: Option<string>) {
    id.Some? && id.value != ""
  }

  /** `fetchCompany`; `id` is the route parameter, `query` the database's answer. */
  function FetchPublicCompany(s: PublicState, id: Option<string>, query: string -> SingleRow): (run: PublicFetchRun)
    // Without an id (missing or empty) there is no query and nothing changes, not even `loading`.
    ensures !HasId(id) ==> run == PublicFetchRun(None, s)
    // With an id, that id is queried and loading ends.
    ensures HasId(id) ==> run.queried == id && !run.final.loading
    // An error leaves the company as it was; otherwise the returned row is kept.
    ensures HasId(id) && query(id.value).error.Some? ==> run.final.company == s.company
    ensures HasId(id) && query(id.value).error.None? ==> run.final.company == query(id.value).data
  {
    match id
    case None => PublicFetchRun(None, s)
    case Some(key) =>
      if key == "" then PublicFetchRun(None, s)
      else
        var result := query(key);
        if result.error.Some? then PublicFetchRun(id, s.(loading := false))
        else PublicFetchRun(id, PublicState(result.data, false))
  }

  /** The review statistics card. */
  datatype Stats = Stats(totalReviews: int, scamReports: int, legitimateReviews: int)

  /** The statistics shown for a company: legitimate reviews are the reviews
      that are not scam reports, so the two add up to the total. */
  function StatsOf(c: Company): (st: Stats)
    ensures st.totalReviews == c.totalReviews && st.scamReports == c.scamCount
    ensures st.legitimateReviews + st.scamReports == st.totalReviews
  {
    Stats(c.totalReviews, c.scamCount, c.totalReviews - c.scamCount)
  }

  /** The colour class of the company's score (`scoreColor`). */
  function ScoreColor(c: Company): (cls: string)
    ensures cls == ColorClass(BandOf(c.baseScore))
  {
    if c.baseScore >= 70 then "text-success"
    else if c.baseScore >= 40 then "text-warning"
    else "text-danger"
  }

  /** What the page renders. */
  datatype PublicView = LoadingView | NotFoundView | DetailsView(company: Company, scoreColor: string, stats: Stats)

  /** The render: loading first, then not-found, then the details. */
  function ViewOf(s: PublicState): (v: PublicView)
    ensures v == LoadingView <==> s.loading
    ensures v == NotFoundView <==> !s.loading && s.company.None?
    ensures v.DetailsView? ==> v.company == s.company.value && v.stats == StatsOf(v.company)
    ensures v.DetailsView? ==> v.scoreColor == ColorClass(BandOf(v.company.baseScore))
  {
    if s.loading then LoadingView
    else if s.company.None? then NotFoundView
    else DetailsView(s.company.value, ScoreColor(s.company.value), StatsOf(s.company.value))
  }

  /** A failed query on first load shows "Company not found". */
  lemma FetchErrorShowsNotFound(key: string, query: string -> SingleRow)
    requires key != "" && query(key).error.Some?
    ensures ViewOf(FetchPublicCompany(InitialPublic, Some(key), query).final) == NotFoundView
  {
  }

  /** Without a route id, missing or empty, the page keeps showing "Loading..."
      whatever the database holds. */
  lemma MissingIdKeepsLoading(id: Option<string>, query: string -> SingleRow)
    requires id.None? || id.value == ""
    ensures ViewOf(FetchPublicCompany(InitialPublic, id, query).final) == LoadingView
  {
  }
}

=== FILE: detect.dfy ===
/** The Detect page: the user pastes a job posting, the page calls the
    `analyze-job` function and shows the score, explanation and factors. */
module DetectPage {
  import opened Base
  import opened ScoreBand
  import Text
  import AnalyzeJob

  /** The analysis object the page renders (the function's 200 body). */
  datatype Analysis = Analysis(score: int, explanation: string, factors: Option<seq<string>>)

  /** The page's state: the text area, the busy flag and the last result. */
  datatype DetectState = DetectState(description: string, analyzing: bool, result: Option<Analysis>)

  /** What `supabase.functions.invoke` produced: the data without an error
      (`None` when the function answered with a JSON `null`), or an error
      (returned or thrown) with its message. */
  datatype InvokeOutcome = Data(data: Option<Analysis>) | InvokeError(message: string)

  /** One run of `handleAnalyze`: the description sent (if any), the state
      while the call is awaited, the state afterwards and the toast raised. */
  datatype AnalyzeRun = AnalyzeRun(invoked: Option<string>, pending: DetectState, final: DetectState, toast: Toast)

  const EmptyDescriptionMessage := "Please enter a job description"
  const CompleteMessage := "Analysis complete!"
  const FailedMessage := "Failed to analyze job posting"

  /** The page's guard `!jobDescription.trim()` is false. */
  predicate PassesGuard(description: string) {
    Text.Trim(description) != ""
  }

  /** The Analyze button: disabled while analyzing or when only white space was entered. */
  function AnalyzeDisabled(s: DetectState): (disabled: bool)
    ensures disabled <==> s.analyzing || Text.AllWhitespace(s.description)
  {
    Text.TrimEmptyIffAllWhitespace(s.description);
    s.analyzing || !PassesGuard(s.description)
  }

  /** The toast text for a failed call: the error's message, or a fallback when it is empty. */
  function FailureText(message: string): (t: string)
    ensures t != ""
    ensures message != "" ==> t == message
    ensures message == "" ==> t == FailedMessage
  {
    if message != "" then message else FailedMessage
  }

  /** `handleAnalyze`. */
  function HandleAnalyze(s: DetectState, invoke: string -> InvokeOutcome): (run: AnalyzeRun)
    // The function is invoked, with the untrimmed text, exactly when it has a non-white-space character.
    ensures run.invoked.Some? <==> !Text.AllWhitespace(s.description)
    ensures run.invoked.Some? ==> run.invoked.value == s.description
    // Otherwise nothing changes and the user is told to enter a description.
    ensures run.invoked.None? ==>
              run.pending == s && run.final == s && run.toast == ErrorToast(EmptyDescriptionMessage)
    // While the call is awaited the previous result is cleared and the page is busy.
    ensures run.invoked.Some? ==> run.pending == s.(analyzing := true, result := None)
    // Afterwards the page is no longer busy, whatever the outcome ...
    ensures run.invoked.Some? ==> !run.final.analyzing && run.final.description == s.description
    // ... the result is what the call returned on success, and cleared on failure ...
    ensures run.invoked.Some? && invoke(s.description).Data? ==>
              run.final.result == invoke(s.description).data &&
              run.toast == SuccessToast(CompleteMessage)
    ensures run.invoked.Some? && invoke(s.description).InvokeError? ==> run.final.result.None?
    // ... and a failure is reported with its message.
    ensures run.invoked.Some? && invoke(s.description).InvokeError? ==>
              run.toast == ErrorToast(FailureText(invoke(s.description).message))
  {
    Text.TrimEmptyIffAllWhitespace(s.description);
    if !PassesGuard(s.description) then
      AnalyzeRun(None, s, s, ErrorToast(EmptyDescriptionMessage))
    else
      var pending := s.(analyzing := true, result := None);
      match invoke(s.description)
      case Data(d) =>
        AnalyzeRun(Some(s.description), pending, pending.(result := d, analyzing := false),
                   SuccessToast(CompleteMessage))
      case InvokeError(m) =>
        AnalyzeRun(Some(s.description), pending, pending.(analyzing := false), ErrorToast(FailureText(m)))
  }

  /** The result card is rendered exactly when a result is held. */
  predicate ShowsResultCard(s: DetectState) {
    s.result.Some?
  }

  /** A call that succeeds with a `null` body still reports success, yet no
      result card is shown. */
  lemma NullDataShowsNoCard(s: DetectState, invoke: string -> InvokeOutcome)
    requires !Text.AllWhitespace(s.description) && invoke(s.description) == Data(None)
    ensures !ShowsResultCard(HandleAnalyze(s, invoke).final)
    ensures HandleAnalyze(s, invoke).toast == SuccessToast(CompleteMessage)
  {
  }

  /** Whenever the button is enabled, pressing it calls the function. */
  lemma EnabledButtonInvokes(s: DetectState, invoke: string -> InvokeOutcome)
    requires !AnalyzeDisabled(s)
    ensures HandleAnalyze(s, invoke).invoked == Some(s.description)
  {
  }

  /** The page and the function agree on which descriptions are acceptable:
      whatever the page sends passes the function's validation, and whatever the
      page refuses the function would also refuse. */
  lemma GuardAgreesWithHandler(description: string)
    ensures PassesGuard(description) <==> AnalyzeJob.Validate(AnalyzeJob.StringValue(description)).Accepted?
  {
    Text.TrimEmptyIffAllWhitespace(description);
  }

  /** The colour class of the score (`getScoreColor`). */
  function ScoreColor(score: int): (cls: string)
    ensures cls == ColorClass(BandOf(score))
  {
    if score >= 70 then "text-success"
    else if score >= 40 then "text-warning"
    else "text-danger"
  }

  datatype Glyph = CheckCircle | AlertTriangle | Shield

  /** An icon: its glyph and its colour class. */
  datatype Icon = Icon(glyph: Glyph, colorClass: string)

  /** The icon that goes with each band. */
  function BandIcon(b: Band): Icon {
    match b
    case Success => Icon(CheckCircle, "text-success")
    case Warning => Icon(AlertTriangle, "text-warning")
    case Danger => Icon(Shield, "text-danger")
  }

  /** The icon of the score (`getScoreIcon`). */
  function ScoreIcon(score: int): (i: Icon)
    ensures i == BandIcon(BandOf(score))
  {
    if score >= 70 then Icon(CheckCircle, "text-success")
    else if score >= 40 then Icon(AlertTriangle, "text-warning")
    else Icon(Shield, "text-danger")
  }

  /** The icon is always coloured like the score next to it. */
  lemma IconAgreesWithColor(score: int)
    ensures ScoreIcon(score).colorClass == ScoreColor(score)
  {
  }

  /** The factors listed under "Key Factors": none unless present and non-empty. */
  function ListedFactors(a: Analysis): (listed: seq<string>)
    ensures a.factors.Some? && |a.factors.value| > 0 ==> listed == a.factors.value
    ensures a.factors.None? || |a.factors.value| == 0 ==> listed == []
  {
    match a.factors
    case Some(fs) => if |fs| > 0 then fs else []
    case None => []
  }

  /** The "Key Factors" section is shown exactly when there is a factor to list. */
  predicate ShowsFactors(a: Analysis) {
    a.factors.Some? && |a.factors.value| > 0
  }

  lemma FactorsShownIffListed(a: Analysis)
    ensures ShowsFactors(a) <==> ListedFactors(a) != []
  {
  }

  /** The page's colour bands and the prompt's rubric are different scales:
      a score of 70 is shown as good though the rubric calls it only possibly
      legitimate, and 31 to 39 is shown as dangerous though the rubric calls it
      suspicious. */
  lemma DisplayBandsDifferFromRubric()
    ensures BandOf(70) == Success && AnalyzeJob.RubricVerdict(70) == AnalyzeJob.PossiblyLegitimate
    ensures forall s :: 31 <= s <= 39 ==>
              BandOf(s) == Danger && AnalyzeJob.RubricVerdict(s) == AnalyzeJob.Suspicious
  {
  }
}

=== FILE: reviews.dfy ===
/** The Reviews page: a searchable list of companies and a form that files a
    review (scam or not, with text) against the selected company. */
module ReviewsPage {
  import opened Base
  import opened ScoreBand
  import Text

  // ----- Company search -----

  /** The filter condition: the lowercased name contains the lowercased term. */
  predicate NameMatches(c: Company, term: string) {
    Text.Includes(Text.Lower(c.name), Text.Lower(term))
  }

  /** `xs` is `ys` with some elements left out and the rest in their order. */
  ghost predicate IsSubsequence<T>(xs: seq<T>, ys: seq<T>)
    decreases |ys|
  {
    || xs == []
    || (&& |ys| > 0
        && ((xs[0] == ys[0] && IsSubsequence(xs[1..], ys[1..])) || IsSubsequence(xs, ys[1..])))
  }

  /** `filteredCompanies`: the companies whose name matches the search term. */
  function FilterCompanies(cs: seq<Company>, term: string): (r: seq<Company>)
    ensures |r| <= |cs|
    ensures forall i :: 0 <= i < |r| ==> NameMatches(r[i], term)
  {
    if |cs| == 0 then []
    else
      var rest := FilterCompanies(cs[1..], term);
      if NameMatches(cs[0], term) then [cs[0]] + rest else rest
  }

  /** The filter keeps the companies in their order. */
  lemma {:induction false} FilterKeepsOrder(cs: seq<Company>, term: string)
    ensures IsSubsequence(FilterCompanies(cs, term), cs)
  {
    if |cs| > 0 {
      var rest := FilterCompanies(cs[1..], term);
      FilterKeepsOrder(cs[1..], term);
      if NameMatches(cs[0], term) {
        assert ([cs[0]] + rest)[1..] == rest;
      }
    }
  }

  /** Every matching company is kept, as often as it occurs, and no other. */
  lemma {:induction false} FilterKeepsExactlyMatches(cs: seq<Company>, term: string)
    ensures forall c :: multiset(FilterCompanies(cs, term))[c] ==
                          if NameMatches(c, term) then multiset(cs)[c] else 0
  {
    if |cs| > 0 {
      FilterKeepsExactlyMatches(cs[1..], term);
      assert cs == [cs[0]] + cs[1..];
    }
  }

  /** An empty search term keeps every company. */
  lemma {:induction false} EmptyTermKeepsAll(cs: seq<Company>)
    ensures FilterCompanies(cs, "") == cs
  {
    if |cs| > 0 {
      Text.IncludesEmpty(Text.Lower(cs[0].name));
      EmptyTermKeepsAll(cs[1..]);
    }
  }

  /** The search ignores the case of the term. */
  lemma {:induction false} FilterIgnoresTermCase(cs: seq<Company>, term: string)
    ensures FilterCompanies(cs, Text.Lower(term)) == FilterCompanies(cs, term)
  {
    Text.LowerIdempotent(term);
    if |cs| > 0 {
      FilterIgnoresTermCase(cs[1..], term);
    }
  }

  /** A company is listed exactly when it is in the list and its name matches. */
  lemma FilterMembership(cs: seq<Company>, term: string, c: Company)
    ensures c in FilterCompanies(cs, term) <==> c in cs && NameMatches(c, term)
  {
  }

  // ----- Review submission -----

  /** The review form; `isScam` holds the radio button's value. */
  datatype ReviewForm = ReviewForm(isScam: string, text: string)

  /** The form's initial and post-submission contents. */
  const BlankReview := ReviewForm("false", "")

  /** The row inserted into `reviews`. */
  datatype ReviewInsert = ReviewInsert(companyId: string, userId: string, isScam: bool, reviewText: string)

  /** One run of `handleSubmitReview`: the insert made (if any), the navigation,
      the toast, the form afterwards and whether reviews and companies are reloaded. */
  datatype SubmitReviewRun = SubmitReviewRun(
    inserted: Option<ReviewInsert>,
    redirect: Option<string>,
    toast: Toast,
    form: ReviewForm,
    reloaded: bool
  )

  const LoginMessage := "Please login to submit a review"
  const SelectMessage := "Please select a company first"
  const FailedMessage := "Failed to submit review"
  const SubmittedMessage := "Review submitted successfully!"

  /** The row built from the form for a user and a company. */
  function ReviewRow(user: User, company: Company, form: ReviewForm): (row: ReviewInsert)
    ensures row.isScam <==> form.isScam == "true"
    ensures row.companyId == company.id && row.userId == user.id && row.reviewText == form.text
  {
    ReviewInsert(company.id, user.id, form.isScam == "true", form.text)
  }

  /** `handleSubmitReview`; `insert` is the database's answer to an insert. */
  function SubmitReview(
    user: Option<User>,
    selected: Option<Company>,
    form: ReviewForm,
    insert: ReviewInsert -> Option<DbError>
  ): (run: SubmitReviewRun)
    // No user: no insert, navigates to /auth; checked before the company.
    ensures user.None? ==>
              run == SubmitReviewRun(None, Some(AuthRoute), ErrorToast(LoginMessage), form, false)
    // A user but no company: no insert, no redirect.
    ensures user.Some? && selected.None? ==>
              run == SubmitReviewRun(None, None, ErrorToast(SelectMessage), form, false)
    // Otherwise exactly one insert, built from the form.
    ensures run.inserted.Some? <==> user.Some? && selected.Some?
    ensures run.inserted.Some? ==> run.inserted.value == ReviewRow(user.value, selected.value, form)
    ensures run.redirect.Some? <==> user.None?
    // The form is reset, and the lists reloaded, exactly after a successful insert.
    ensures run.reloaded <==> run.inserted.Some? && insert(run.inserted.value).None?
    ensures run.form == if run.reloaded then BlankReview else form
    ensures run.inserted.Some? ==>
              run.toast == if run.reloaded then SuccessToast(SubmittedMessage) else ErrorToast(FailedMessage)
  {
    if user.None? then
      SubmitReviewRun(None, Some(AuthRoute), ErrorToast(LoginMessage), form, false)
    else if selected.None? then
      SubmitReviewRun(None, None, ErrorToast(SelectMessage), form, false)
    else
      var row := ReviewRow(user.value, selected.value, form);
      if insert(row).Some? then
        SubmitReviewRun(Some(row), None, ErrorToast(FailedMessage), form, false)
      else
        SubmitReviewRun(Some(row), None, SuccessToast(SubmittedMessage), BlankReview, true)
  }

  // ----- Company score -----

  /** The colour class of a company's score in the list. */
  function CompanyScoreColor(c: Company): (cls: string)
    ensures cls == ColorClass(BandOf(c.baseScore))
  {
    if c.baseScore >= 70 then "text-success"
    else if c.baseScore >= 40 then "text-warning"
    else "text-danger"
  }
}

=== FILE: score_band.dfy ===
/** The three colour bands the Detect, Reviews, Company, public company and user
    profile pages use to display a legitimacy score:
    70 and above is good, 40 to 69 is a warning, below 40 is dangerous. */
module ScoreBand {

  datatype Band = Success | Warning | Danger

  /** Lower bound of the good band. */
  const GoodThreshold := 70
  /** Lower bound of the warning band. */
  const WarningThreshold := 40

  /** The band a score falls into; exactly one band holds for each score. */
  function BandOf(score: int): (b: Band)
    ensures b == Success <==> score >= GoodThreshold
    ensures b == Warning <==> WarningThreshold <= score < GoodThreshold
    ensures b == Danger <==> score < WarningThreshold
  {
    if score >= GoodThreshold then Success
    else if score >= WarningThreshold then Warning
    else Danger
  }

  /** The CSS class that renders a band. */
  function ColorClass(b: Band): string {
    match b
    case Success => "text-success"
    case Warning => "text-warning"
    case Danger => "text-danger"
  }

  /** Bands ordered from worst (0) to best (2). */
  function Rank(b: Band): nat {
    match b
    case Danger => 0
    case Warning => 1
    case Success => 2
  }

  /** Distinct bands render with distinct classes. */
  lemma ColorClassInjective(a: Band, b: Band)
    requires ColorClass(a) == ColorClass(b)
    ensures a == b
  {
  }

  /** Raising a score never moves it to a worse band. */
  lemma BandMonotone(lo: int, hi: int)
    requires lo <= hi
    ensures Rank(BandOf(lo)) <= Rank(BandOf(hi))
  {
  }
}

=== FILE: text.dfy ===
/** The string primitives the application relies on: `String.prototype.trim`,
    `toLowerCase` (restricted to ASCII letters) and `includes`. */
module Text {

  /** The characters `trim` removes: ECMAScript WhiteSpace and LineTerminator. */
  predicate IsWhitespace(c: char) {
    || c == '\t' || c == '\n' || c == '\U{000B}' || c == '\U{000C}' || c == '\r'
    || c == ' ' || c == '\U{00A0}' || c == '\U{1680}'
    || ('\U{2000}' <= c <= '\U{200A}')
    || c == '\U{2028}' || c == '\U{2029}' || c == '\U{202F}' || c == '\U{205F}'
    || c == '\U{3000}' || c == '\U{FEFF}'
  }

  /** Every character of `s` is white space (vacuously true of ""). */
  predicate AllWhitespace(s: string) {
    forall i :: 0 <= i < |s| ==> IsWhitespace(s[i])
  }

  /** `s` without its leading white space. */
  function TrimStart(s: string): (r: string)
    ensures |r| <= |s| && r == s[|s| - |r|..]
    ensures AllWhitespace(s[..|s| - |r|])
    ensures r == [] || !IsWhitespace(r[0])
  {
    if |s| > 0 && IsWhitespace(s[0]) then
      var r := TrimStart(s[1..]);
      assert s[..|s| - |r|] == [s[0]] + s[1..][..|s| - 1 - |r|];
      r
    else
      s
  }

  /** `s` without its trailing white space. */
  function TrimEnd(s: string): (r: string)
    ensures |r| <= |s| && r == s[..|r|]
    ensures AllWhitespace(s[|r|..])
    ensures r == [] || !IsWhitespace(r[|r| - 1])
  {
    if |s| > 0 && IsWhitespace(s[|s| - 1]) then
      var r := TrimEnd(s[..|s| - 1]);
      assert s[|r|..] == s[..|s| - 1][|r|..] + [s[|s| - 1]];
      r
    else
      s
  }

  /** `String.prototype.trim`: `s` without leading and trailing white space. */
  function Trim(s: string): (r: string)
    ensures |r| <= |s|
    ensures r == [] || (!IsWhitespace(r[0]) && !IsWhitespace(r[|r| - 1]))
  {
    TrimEnd(TrimStart(s))
  }

  /** Trimming yields "" exactly when the string is white space only. */
  lemma TrimEmptyIffAllWhitespace(s: string)
    ensures Trim(s) == [] <==> AllWhitespace(s)
  {
  }

  /** `trim` removes white space only, and only from the two ends: its result
      is the slice `s[i..j]` with white space before `i` and after `j`. */
  lemma TrimIsInteriorSlice(s: string) returns (i: nat, j: nat)
    ensures i <= j <= |s|
    ensures Trim(s) == s[i..j]
    ensures AllWhitespace(s[..i]) && AllWhitespace(s[j..])
  {
    var t := TrimStart(s);
    var r := Trim(s);
    i := |s| - |t|;
    j := i + |r|;
    assert r == t[..|r|];
    assert t[..|r|] == s[i..j];
    assert t[|r|..] == s[j..];
  }

  /** A string that neither starts nor ends with white space is its own trim. */
  lemma TrimOfTrimmed(s: string)
    requires s == [] || (!IsWhitespace(s[0]) && !IsWhitespace(s[|s| - 1]))
    ensures Trim(s) == s
  {
  }

  /** Trimming twice is trimming once. */
  lemma TrimIdempotent(s: string)
    ensures Trim(Trim(s)) == Trim(s)
  {
  }

  /** `toLowerCase` on one character, ASCII letters only. */
  function LowerChar(c: char): (d: char)
    ensures !('A' <= d <= 'Z')
    ensures d == c || ('A' <= c <= 'Z' && d as int == c as int + 32)
  {
    if 'A' <= c <= 'Z' then (c as int + 32) as char else c
  }

  /** `toLowerCase` on a string, ASCII letters only. */
  function Lower(s: string): (r: string)
    ensures |r| == |s|
    ensures forall i :: 0 <= i < |s| ==> r[i] == LowerChar(s[i])
  {
    seq(|s|, i requires 0 <= i < |s| => LowerChar(s[i]))
  }

  /** Lowering an already lowered string changes nothing. */
  lemma LowerIdempotent(s: string)
    ensures Lower(Lower(s)) == Lower(s)
  {
  }

  /** `s.includes(needle)`: `needle` occurs as a contiguous block of `s`. */
  function Includes(s: string, needle: string): bool
    decreases |s|
  {
    needle <= s || (|s| > 0 && Includes(s[1..], needle))
  }

  /** `needle` occurs in `s` starting at index `i`. */
  ghost predicate OccursAt(s: string, needle: string, i: int) {
    0 <= i && i + |needle| <= |s| && s[i..i + |needle|] == needle
  }

  /** An occurrence of `needle` at any index makes `Includes` hold. */
  lemma {:induction false} OccursImpliesIncludes(s: string, needle: string, i: int)
    requires OccursAt(s, needle, i)
    ensures Includes(s, needle)
    decreases i
  {
    if i > 0 {
      assert s[1..][i - 1..i - 1 + |needle|] == s[i..i + |needle|];
      OccursImpliesIncludes(s[1..], needle, i - 1);
    } else {
      assert s[..|needle|] == needle;
    }
  }

  /** `Includes` holds only when some index starts an occurrence. */
  lemma {:induction false} IncludesImpliesOccurs(s: string, needle: string) returns (i: int)
    requires Includes(s, needle)
    ensures OccursAt(s, needle, i)
    decreases |s|
  {
    if needle <= s {
      i := 0;
    } else {
      var j := IncludesImpliesOccurs(s[1..], needle);
      assert s[1..][j..j + |needle|] == s[j + 1..j + 1 + |needle|];
      i := j + 1;
    }
  }

  /** `Includes` holds exactly when some index of `s` starts an occurrence. */
  lemma IncludesIffOccurs(s: string, needle: string)
    ensures Includes(s, needle) <==> exists i :: OccursAt(s, needle, i)
  {
    forall i | OccursAt(s, needle, i) ensures Includes(s, needle) {
      OccursImpliesIncludes(s, needle, i);
    }
    if Includes(s, needle) {
      var i := IncludesImpliesOccurs(s, needle);
    }
  }

  /** Every string includes the empty string. */
  lemma IncludesEmpty(s: string)
    ensures Includes(s, "")
  {
  }
}
